=== FILE: README.md ===
# MineMod account, authentication and editor-edge rules in Dafny

MineMod is a web platform for building Minecraft mods visually. Most of the
repository is user interface and wiring; this project models its small pieces
of decision logic and proves what they promise:

- **Account lifecycle** (`server/src/controllers/authController.ts`): register,
  login, getCurrentUser, verifyEmail, forgotPassword and resetPassword. Each is a
  guarded transition over an abstract user table. Each returns a status code and
  a body, plus the table after the request (`auth_controller.dfy`). The
  properties that span several requests are in `account_lifecycle.dfy`: unique
  usernames and emails, login under that invariant, and the life of a reset
  token. `check_then_act.dfy` looks at two requests handled at the same time
  (see Findings).
- **Request authentication** (`server/src/middleware/auth.ts`): Bearer-token
  extraction and the `authenticate` / `optionalAuth` decisions, as sequences of
  effects (send a response, attach the user, call next) (`auth_middleware.dfy`,
  `strings.dfy`).
- **Socket authentication** (`server/src/socket/middleware.ts`): the choice of
  token source and the accept/reject decision of `authenticateSocket`
  (`socket_middleware.dfy`).
- **Registration form** (`client/src/pages/Auth/Register.tsx`): `handleChange`,
  `validateForm`, the `handleSubmit` gate and the submit button's disabled rule
  (`register_form.dfy`).
- **Editor edge styling** (`client/src/components/ModEditor/edges/ModEdge.tsx`):
  the colour classifier, stroke width and dash selection, and the delete-control
  guard (`mod_edge.dfy`).

Foreign collaborators are inputs:

| source | model |
|---|---|
| express-validator's `validationResult` | a boolean `valid` |
| `jwt.sign` | a function `sign: UserId -> Option<string>`, where `None` means signing threw (for instance with no secret configured) |
| `jwt.verify` | a function `verify: string -> Option<UserId>`, where `None` means verification threw |
| `user.validPassword` | an uninterpreted predicate `(User, string) -> bool` |
| `new Date()` | an integer `now`, in milliseconds |
| the `Math.random` reset token | a caller-supplied string |

The Sequelize `User` table is a sequence of rows. The definition of the user
model is not in the source, so its key scheme is an assumption here: the row
at index `i` has the numeric primary key `i + 1`, as an auto-increment key
starting at 1 would assign it.
`findOne` returns the matching row with the lowest key. The database leaves
that choice open; under the uniqueness invariant, lookups by email or username
have only one candidate anyway.

The repository contains no visual-graph validator or IR compiler. The mod
editor's code only draws edges and their branch tags. This model follows the
code, so it covers the edge drawing and nothing of a graph compiler.

## Model

| member | source | states |
|---|---|---|
| Strings.RemoveFirst | server/src/middleware/auth.ts:27 | `replace(pat, '')` with a string pattern removes only the first occurrence of the pattern, wherever it is. Without an occurrence the string is returned unchanged. The replacement is empty, so no `$` patterns arise. |
| Strings.RemoveFirstOfPrefix | server/src/middleware/auth.ts:27 | A string that starts with the pattern loses exactly that leading copy. |
| Strings.RemoveFirstInside | server/src/middleware/auth.ts:27 | An occurrence in the middle is cut out when no earlier one exists, so removal is not limited to a prefix. |
| AuthMiddleware.ExtractToken | server/src/middleware/auth.ts:27 | No Authorization header gives no token. Otherwise the token is the header with its first "Bearer " cut out, wherever that occurrence is, or the header unchanged when it contains no "Bearer ". |
| AuthMiddleware.BearerHeaderYieldsToken | server/src/middleware/auth.ts:27 | The header `Bearer <t>` yields the token `t`. |
| AuthMiddleware.BearerRemovedAnywhere | server/src/middleware/auth.ts:27 | The header `xBearer y` yields the token `xy`: the first `Bearer ` is removed even when it is not at the start. |
| AuthMiddleware.HeaderWithoutBearerIsToken | server/src/middleware/auth.ts:27 | A header that does not contain `Bearer ` is used unchanged as the token. |
| AuthMiddleware.BareBearerHeaderIsRefused | server/src/middleware/auth.ts:27-32 | The header `Bearer ` yields the empty token, which authenticate treats as missing: one 401 "No token, authorization denied". |
| AuthMiddleware.Authenticate | server/src/middleware/auth.ts:24-51 | Next is called exactly when the token is truthy, verifies, and names an existing user. Then `req.user` is that decoded id and next is called once. Otherwise exactly one 401 is sent and next is not called. The message depends on the failure: "No token, authorization denied" for a missing or empty token, "Token is not valid" for a failed verification, "User not found" for an unknown id. |
| AuthMiddleware.OptionalAuth | server/src/middleware/auth.ts:54-80 | Never sends a response. Calls next exactly once, as its last effect. Attaches the user exactly when the token verifies to an existing user, and then with the decoded id. Otherwise `req.user` is untouched. |
| AuthMiddleware.OptionalAuthAgreesWithAuthenticate | server/src/middleware/auth.ts:24-80 | optionalAuth attaches a user id exactly when authenticate would attach the same id. |
| SocketMiddleware.SelectToken | server/src/socket/middleware.ts:15 | The handshake auth token is used when truthy; otherwise the `token` header is used. The result is truthy exactly when one of the two is. |
| SocketMiddleware.AuthenticateSocket | server/src/socket/middleware.ts:13-36 | Next is called exactly once, as the last effect. It gets no error exactly when the token verifies to an existing user. `userId` is set in that case and only then, to the decoded id. A missing token or a failed verification gives "Authentication error". An unknown user gives "User not found". |
| SocketMiddleware.AuthTokenTakesPrecedence | server/src/socket/middleware.ts:15 | With a non-empty auth token, the header token has no influence on the outcome. |
| UserTable.FindOne | server/src/controllers/authController.ts:24-31 | `findOne` finds a row exactly when some row satisfies the where clause. The row it returns satisfies the clause, and no row with a lower key does. |
| UserTable.Matches | server/src/controllers/authController.ts:245-252 | A null token column matches no token. The reset lookup matches only a row holding the token whose expiry is present and strictly greater than `now` (`Op.gt`), so an expiry equal to `now` never matches. |
| UserTable.FindByPk | server/src/controllers/authController.ts:142-144 | `findByPk` returns the row whose key is the given id, or nothing when no row has that key. |
| AuthController.Register | server/src/controllers/authController.ts:13-71 | A failed validation gives 400 with the table unchanged. A username or email already in use by any account gives 400 "Username or email already exists" with the table unchanged. Otherwise exactly one verified, token-less row is appended. The response is 201 when a token can be signed for the new key; the body carries the row's data, which has no password field, and that token. When signing fails the response is 500 "Server error", and the row stays created. |
| AuthController.InsertUnlessTaken | server/src/controllers/authController.ts:24-44 | The insert is refused exactly when the username or email is already in use, checked atomically with the write. Otherwise exactly the new row is appended, and a unique table stays unique. |
| AuthController.Login | server/src/controllers/authController.ts:76-128 | Login never writes the table. A failed validation gives 400. An unknown email and a wrong password both give the identical 401 "Invalid credentials". A 200 carries the data and a signed token for an account with that email that accepts the password. A 500 "Server error" means such an account was found but its token could not be signed. |
| AuthController.GetCurrentUser | server/src/controllers/authController.ts:133-156 | 401 "Unauthorized" exactly when the request has no (truthy) identity. 404 "User not found" exactly when the id names no row. Otherwise 200 with every column of that row except the password. |
| AuthController.VerifyEmail | server/src/controllers/authController.ts:161-185 | Succeeds exactly when some account holds the verification token. That account becomes verified and its token is cleared; no other row changes. A token nobody holds gives 400 with the table unchanged. |
| AuthController.ForgotPassword | server/src/controllers/authController.ts:190-228 | A validated request always gets the same 200 message, so the answer does not reveal whether the email is registered. For a registered email, that account gets the reset token and an expiry one hour after `now`; no other row changes. An unregistered email leaves the table unchanged. |
| AuthController.SaveResetIfLive | server/src/controllers/authController.ts:254-265 | The save of a reset succeeds exactly when the row still holds the token unexpired, checked atomically with the write. It then replaces the password and clears the token and its expiry. Otherwise the answer is 400 and nothing changes. |
| AuthController.ResetPassword | server/src/controllers/authController.ts:233-270 | Succeeds exactly when the request is valid and some account holds the token with an expiry strictly after `now`. That account's password is replaced and its token and expiry are cleared; no other row changes. Otherwise 400 with the table unchanged. |
| AccountLifecycle.RegisterKeepsUnique | server/src/controllers/authController.ts:23-44 | Register preserves the invariant that no two accounts share a username or an email. |
| AccountLifecycle.ApplyKeepsIdentities | server/src/controllers/authController.ts:13-270 | No request removes an account or changes its key, username or email. |
| AccountLifecycle.ApplyKeepsUnique | server/src/controllers/authController.ts:13-270 | Every request preserves the uniqueness of usernames and emails. |
| AccountLifecycle.RunKeepsUnique | server/src/controllers/authController.ts:13-270 | Uniqueness of usernames and emails holds after any sequence of requests that starts from a table where it holds. |
| AccountLifecycle.RunKeepsIdentities | server/src/controllers/authController.ts:13-270 | After any sequence of requests, every earlier account keeps its key, username and email. |
| AccountLifecycle.LoginSucceedsIff | server/src/controllers/authController.ts:84-123 | With unique emails, login succeeds exactly when the request is valid, the account with that email accepts the password, and a token can be signed for it. |
| AccountLifecycle.RegisteredUserIsCurrent | server/src/controllers/authController.ts:39-151 | After a successful register, getCurrentUser for the new key answers 200 with the registered username and email, verified, and with no tokens. |
| AccountLifecycle.ResetExpiryIsStrict | server/src/controllers/authController.ts:245-257 | A reset token held by one account only, whose expiry equals `now`, is refused with 400, and nothing changes. |
| AccountLifecycle.ResetTokenSingleUse | server/src/controllers/authController.ts:259-265 | Once a token held by a single account has been used, no account holds it live any more. A second reset with it fails with 400 and changes nothing. |
| AccountLifecycle.ForgotThenReset | server/src/controllers/authController.ts:211-265 | A fresh token issued by forgotPassword at time `issued` is accepted at time `at` exactly when `at < issued + 1 hour`. The accepted reset changes the password of the account with that email, and a second use of the token fails. |
| RegisterForm.Initial | client/src/pages/Auth/Register.tsx:24-32 | The page starts with all four fields empty, the terms unaccepted and no password error. |
| RegisterForm.HandleChange | client/src/pages/Auth/Register.tsx:36-47 | The named field takes the typed value and every other field keeps its value; an unknown name changes no field. The auth error is cleared. The password error is cleared exactly when the changed field is `password` or `confirmPassword`. |
| RegisterForm.SetAcceptTerms | client/src/pages/Auth/Register.tsx:186-188 | Toggling the checkbox sets the terms flag and changes nothing else. |
| RegisterForm.TestDigit | client/src/pages/Auth/Register.tsx:57 | The left-to-right scan finds a character exactly when the password contains some ASCII digit 0-9. |
| RegisterForm.TestLetter | client/src/pages/Auth/Register.tsx:57 | The scan finds a character exactly when the password contains some ASCII letter a-z or A-Z. |
| RegisterForm.ValidateForm | client/src/pages/Auth/Register.tsx:49-68 | True exactly when the passwords match, the password has at least 8 characters, a digit and a letter, and the terms are accepted. A mismatch reports "Passwords do not match" even when the password is also weak. A weak matching password reports the strength message. Unaccepted terms leave the password error as it was. |
| RegisterForm.HandleSubmit | client/src/pages/Auth/Register.tsx:48-79 | Register is called exactly when validation passes, with the form's username, email and password. Navigation to "/" follows exactly when register was called. The password error afterwards is the one validateForm leaves, and the form fields and the terms flag are unchanged. A refused submit leaves the auth context's error as it was; one that calls register clears it, as that register does before its first await and never sets it again, because it cannot throw (client/src/contexts/AuthContext.tsx:109-137). |
| RegisterForm.SubmitDisabled | client/src/pages/Auth/Register.tsx:213 | The submit button is enabled exactly when nothing is loading and the terms are accepted. |
| RegisterForm.EnabledSubmitOnlyChecksPasswords | client/src/pages/Auth/Register.tsx:213 | While the submit button is enabled, only the password checks can stop a submit. |
| RegisterForm.TypingClearsPasswordError | client/src/pages/Auth/Register.tsx:44-58 | A submit with mismatched passwords leaves the mismatch error, and one with matching but weak passwords leaves the strength error. Typing in a password field afterwards clears either. |
| RegisterForm.InitialFormIsRejected | client/src/pages/Auth/Register.tsx:24-31 | A fresh page has its submit button disabled, and a submit makes no register call. |
| RegisterForm.PasswordStrengthExamples | client/src/pages/Auth/Register.tsx:57-60 | "abcdefg1" is strong. "abcdefgh" (no digit), "12345678" (no letter) and "abc1234" (seven characters) are not. |
| ModEdge.EdgeColor | client/src/components/ModEditor/edges/ModEdge.tsx:35-40 | The colour is always one of four. `condition-true` gives #10b981 and `condition-false` gives #ef4444, each exactly for its tag. An untagged edge gives #8b5cf6 exactly when sourceX < targetX strictly, and #f59e0b otherwise, equality included. |
| ModEdge.BranchTagIgnoresDirection | client/src/components/ModEditor/edges/ModEdge.tsx:36-37 | A branch tag takes precedence: the colour of a tagged edge does not depend on its coordinates. |
| ModEdge.ReversedUntaggedEdge | client/src/components/ModEditor/edges/ModEdge.tsx:38-39 | Reversing an untagged edge swaps forward and backward colours. An edge with equal x coordinates is drawn backward both ways. |
| ModEdge.EdgeStyle | client/src/components/ModEditor/edges/ModEdge.tsx:49-54 | The caller's style entries pass through unchanged, except stroke, strokeWidth and strokeDasharray, which are set. The stroke is the edge colour. The width is 3 exactly when selected, else 2. The dash pattern is "5,5" exactly when `data.dashed` is set, else "none". |
| ModEdge.DeleteControlDisplay | client/src/components/ModEditor/edges/ModEdge.tsx:62 | The delete control is displayed exactly when the edge is selected. |
| ModEdge.DeleteClick | client/src/components/ModEditor/edges/ModEdge.tsx:76-80 | A click calls `onDelete` exactly when it is provided, and always with this edge's own id. |
| ModEdge.DeleteRequest | client/src/components/ModEditor/edges/ModEdge.tsx:62-80 | A click on the delete control requests a deletion exactly when the edge is selected and has a callback, and only under its own id. |
| CheckThenAct.CreateAsWritten | server/src/controllers/authController.ts:39-44 | Register's create, as written, appends the new row and leaves every existing row as it was. It makes no check of its own. |
| CheckThenAct.RacingRegistersAsWritten | server/src/controllers/authController.ts:24-44 | Two registers sharing a username or email can both pass the lookup before either creates. Both rows are then created and the table is no longer unique. |
| CheckThenAct.RacingRegistersCorrected | server/src/controllers/authController.ts:24-44 | Under the same interleaving, the atomic insert accepts the first register, keeps the table unique, and refuses the second. |
| CheckThenAct.SaveResetAsWritten | server/src/controllers/authController.ts:259-265 | resetPassword's save, as written, always answers 200. It sets the password and clears the token on the row the lookup returned, and leaves the other rows alone. |
| CheckThenAct.RacingResetsAsWritten | server/src/controllers/authController.ts:245-265 | Two resets with one live token can both pass the lookup before either saves. Both answer 200, although the first already consumed the token, and the second password wins. |
| CheckThenAct.RacingResetsCorrected | server/src/controllers/authController.ts:245-265 | Under the same interleaving, the conditional save accepts only the first reset. The second answers 400 and leaves the first password in place. |

## Findings

| source | as written | input that shows it | evidently intended | confidence | as-written member | corrected member |
|---|---|---|---|---|---|---|
| server/src/controllers/authController.ts:24-44 | The duplicate check (`findOne`) and the insert (`create`) are separate awaited steps. | On an empty table, two registers of username "a" and email "a@x" both run their lookup before either creates. | An account with a username or email already in use is never created. | not executed; medium, because the user model may declare unique indexes, and the definition of the user model is not in the source | CheckThenAct.RacingRegistersAsWritten | CheckThenAct.RacingRegistersCorrected |
| server/src/controllers/authController.ts:245-265 | The token lookup and the password save are separate awaited steps, and the save does not check the token again. | One account holds a live token, and two resetPassword requests with that token both run their lookup before either saves. | A reset token is accepted once. | not executed; medium | CheckThenAct.RacingResetsAsWritten | CheckThenAct.RacingResetsCorrected |

The rest of the model uses the corrected writes. `Register` inserts through
`AuthController.InsertUnlessTaken`, and `ResetPassword` saves through
`AuthController.SaveResetIfLive`. For requests handled one at a time, the
corrected writes answer exactly as the source's lookup-then-write steps do
(under the key and collation assumptions listed under "## Left out"); the
check in each write only matters under interleaving. With a database unique index, the source would answer the
second register with 500 "Server error" rather than the duplicate 400.

## Left out

- AccountLifecycle.RunKeepsUnique: requests run atomically and one at a time. The source awaits between its lookup and its insert, so interleaved requests break this unless something else prevents it. Only the two-register interleaving is modelled (see Findings). The model's atomic insert stands in for a database unique index; the definition of the user model, where such an index would be declared, is not in the source.
- AccountLifecycle.ResetTokenSingleUse: requests run atomically and one at a time. Under interleaving, the source's save does not check the token again (see Findings). Only the two-reset interleaving is modelled.
- Database failures are left out: a query or save that throws leads the controller into its `catch` and a 500 "Server error", and leads authenticate to 401 "Token is not valid". A failing `jwt.verify` is modelled, as `verify` returning `None`. A failing `jwt.sign` is modelled, as `sign` returning `None`: register then answers 500 with the account already created, and login answers 500. The logger is called only inside the `catch` blocks.
- Password hashing is left out. It is a Sequelize hook in the user model, and the definition of the user model is not in the source. The stored password is the submitted one, and `validPassword` is an uninterpreted predicate.
- The `avatarUrl`, `createdAt` and `updatedAt` fields are left out, both from the user data that register and login return and from the profile that getCurrentUser returns (every column but the password). They are defaults and timestamps of the user model, whose definition is not in the source. For the same reason, register stores no verification token.
- UserTable.FindByPk: the primary key is assumed to be a number auto-incremented from 1. Every id declaration in the source types the id as a string (server/src/middleware/auth.ts:7 and :17, server/src/socket/middleware.ts:8), and the user model's definition is not in the source. The model's `Register` gives the new account key `|rows| + 1`, and `AuthController.GetCurrentUser` treats the number 0 as the falsy id. With string keys, the falsy id would be the empty string, and a key could not be predicted from the row count.
- UserTable.Matches: equality in a `where` clause is exact, case-sensitive string equality. The database and its collation are not in the source. Under a case-insensitive collation (MySQL's default, for instance), register would refuse "Alice" when "alice" exists, and login and the token lookups would match across case. The model accepts such a register and matches only exact strings.
- The expiry is modelled as `now + 3,600,000` ms. `setHours(getHours() + 1)` works in local time, so it can differ from that at a daylight-saving change.
- The reset token's randomness and format (`Math.random().toString(36)`) are left out. The token is an input.
- JWT payloads without an `id`, and the token lifetime (`JWT_EXPIRES_IN`), are left out. Both belong to the token library.
- A socket `token` header carrying several values (a string array) is not modelled. Only a string or its absence is.
- RegisterForm.ValidateForm counts password length in characters. JavaScript counts UTF-16 code units, so the two differ for characters outside the Basic Multilingual Plane.
- RegisterForm.HandleChange does not model the extra property that a field name outside the four form fields adds to the form object. No rendered input has such a name.
- The show-password toggle, the loading spinner and the auth context's simulated network call are left out. The context's register catches every error, so navigation always follows it.
- ModEdge coordinates are reals. JavaScript's NaN, which makes `sourceX < targetX` false, is not modelled.
- The Bezier path and label geometry are floating-point layout and are left out.
- Left out as presentation, wiring or side-effecting UI state: the socket room handlers, the client auth context, the layout components, the node palette, and the server bootstrap, routing, ORM configuration, logging and error handler.

=== FILE: account_lifecycle.dfy ===
/**
 * Properties of the account lifecycle that relate several requests: the
 * uniqueness of usernames and emails, login under that invariant, and the
 * life of a password-reset token from its issue to its single use.
 */
module AccountLifecycle {
  import opened Optional
  import opened UserTable
  import opened AuthController

  /** The collaborators every request shares. */
  datatype Env = Env(sign: UserId -> Option<string>, validPassword: (User, string) -> bool)

  /** One request to the controller, with the validator's verdict and the clock where the handler reads them. */
  datatype Request =
    | RegisterRequest(valid: bool, username: string, email: string, password: string)
    | LoginRequest(valid: bool, email: string, password: string)
    | CurrentUserRequest(authId: Option<UserId>)
    | VerifyEmailRequest(token: string)
    | ForgotPasswordRequest(valid: bool, email: string, now: int, resetToken: string)
    | ResetPasswordRequest(valid: bool, token: string, password: string, now: int)

  /** Handle one request. */
  function Apply(t: Table, req: Request, env: Env): Outcome {
    match req
    case RegisterRequest(v, n, e, p) => Register(t, v, n, e, p, env.sign)
    case LoginRequest(v, e, p) => Outcome(Login(t, v, e, p, env.validPassword, env.sign), t)
    case CurrentUserRequest(id) => Outcome(GetCurrentUser(t, id), t)
    case VerifyEmailRequest(tok) => VerifyEmail(t, tok)
    case ForgotPasswordRequest(v, e, now, tok) => ForgotPassword(t, v, e, now, tok)
    case ResetPasswordRequest(v, tok, p, now) => ResetPassword(t, v, tok, p, now)
  }

  /** The table after handling `reqs` in order. */
  function Run(t: Table, reqs: seq<Request>, env: Env): Table
    decreases |reqs|
  {
    if |reqs| == 0 then t else Run(Apply(t, reqs[0], env).table, reqs[1..], env)
  }

  /** A register that succeeds keeps usernames and emails unique. */
  lemma RegisterKeepsUnique(t: Table, valid: bool, username: string, email: string, password: string,
                            sign: UserId -> Option<string>)
    requires Unique(t)
    ensures Unique(Register(t, valid, username, email, password, sign).table)
  {
  }

  /** Every request keeps the existing accounts' keys, usernames and emails. */
  lemma ApplyKeepsIdentities(t: Table, req: Request, env: Env)
    ensures KeepsIdentities(t, Apply(t, req, env).table)
  {
  }

  /** Every request keeps usernames and emails unique: register by the lemma above, the others by writing no username or email. */
  lemma ApplyKeepsUnique(t: Table, req: Request, env: Env)
    requires Unique(t)
    ensures Unique(Apply(t, req, env).table)
  {
    if req.RegisterRequest? {
      RegisterKeepsUnique(t, req.valid, req.username, req.email, req.password, env.sign);
    }
  }

  /** Uniqueness of usernames and emails holds after any sequence of requests. */
  lemma {:induction false} RunKeepsUnique(t: Table, reqs: seq<Request>, env: Env)
    requires Unique(t)
    ensures Unique(Run(t, reqs, env))
    decreases |reqs|
  {
    if |reqs| > 0 {
      ApplyKeepsUnique(t, reqs[0], env);
      RunKeepsUnique(Apply(t, reqs[0], env).table, reqs[1..], env);
    }
  }

  /** No sequence of requests removes an account or changes its key, username or email. */
  lemma {:induction false} RunKeepsIdentities(t: Table, reqs: seq<Request>, env: Env)
    ensures KeepsIdentities(t, Run(t, reqs, env))
    decreases |reqs|
  {
    if |reqs| > 0 {
      var t1 := Apply(t, reqs[0], env).table;
      ApplyKeepsIdentities(t, reqs[0], env);
      RunKeepsIdentities(t1, reqs[1..], env);
    }
  }

  /**
   * With unique emails, login succeeds exactly when the account with that
   * email accepts the password and a token can be signed for it.
   */
  lemma LoginSucceedsIff(t: Table, valid: bool, email: string, password: string,
                         validPassword: (User, string) -> bool, sign: UserId -> Option<string>)
    requires Unique(t)
    ensures Login(t, valid, email, password, validPassword, sign).status == 200 <==>
              valid && exists i :: 0 <= i < |t.rows| && t.rows[i].email == email && validPassword(t.rows[i], password)
                                   && sign(KeyOf(i)).Some?
  {
  }

  /** The account a register creates is the current user for its new key, with the registered username and email. */
  lemma RegisteredUserIsCurrent(t: Table, username: string, email: string, password: string,
                                sign: UserId -> Option<string>)
    requires Register(t, true, username, email, password, sign).response.status == 201
    ensures var r := GetCurrentUser(Register(t, true, username, email, password, sign).table, Some(|t.rows| + 1));
            && r.status == 200
            && r.body.profile.username == username && r.body.profile.email == email
            && r.body.profile.isVerified
            && r.body.profile.verificationToken.None? && r.body.profile.resetPasswordToken.None?
  {
  }

  /** At most one account holds `token` as its reset token. */
  predicate SoleHolder(t: Table, token: string) {
    forall i, j ::
      (0 <= i < |t.rows| && 0 <= j < |t.rows| &&
       t.rows[i].resetPasswordToken == Some(token) && t.rows[j].resetPasswordToken == Some(token)) ==> i == j
  }

  /** A reset token expiring exactly at `now` is already expired: the request is refused and nothing changes. */
  lemma ResetExpiryIsStrict(t: Table, valid: bool, token: string, password: string, now: int)
    requires SoleHolder(t, token)
    requires exists i :: 0 <= i < |t.rows| && t.rows[i].resetPasswordToken == Some(token)
                         && t.rows[i].resetPasswordExpires == Some(now)
    ensures ResetPassword(t, valid, token, password, now).response.status == 400
    ensures ResetPassword(t, valid, token, password, now).table == t
  {
  }

  /** A reset token is consumed by its use: once it was accepted, presenting it again fails. */
  lemma ResetTokenSingleUse(t: Table, token: string, password: string, now: int,
                            valid2: bool, password2: string, now2: int)
    requires SoleHolder(t, token)
    requires ResetPassword(t, true, token, password, now).response.status == 200
    ensures var t' := ResetPassword(t, true, token, password, now).table;
            && !AnyMatch(t', ByLiveResetToken(token, now2))
            && ResetPassword(t', valid2, token, password2, now2).response.status == 400
            && ResetPassword(t', valid2, token, password2, now2).table == t'
  {
  }

  /**
   * The whole reset flow: after a reset for a registered email issues a fresh
   * token at time `issued`, the token is accepted at time `at` exactly when
   * `at` is strictly less than one hour later, it then changes that account's
   * password, and a second use fails.
   */
  lemma ForgotThenReset(t: Table, email: string, issued: int, token: string, password: string, at: int)
    requires AnyMatch(t, ByEmail(email))
    requires forall j :: 0 <= j < |t.rows| ==> t.rows[j].resetPasswordToken != Some(token)
    ensures var t1 := ForgotPassword(t, true, email, issued, token).table;
            var o := ResetPassword(t1, true, token, password, at);
            && (o.response.status == 200 <==> at < issued + OneHourMs)
            && (o.response.status == 200 ==>
                  exists i :: 0 <= i < |t.rows| && t.rows[i].email == email && o.table.rows[i].password == password)
            && (o.response.status == 200 ==> ResetPassword(o.table, true, token, password, at).response.status == 400)
  {
  }
}

=== FILE: auth_controller.dfy ===
/**
 * The account lifecycle of the authentication controller: register, login,
 * getCurrentUser, verifyEmail, forgotPassword and resetPassword, each a
 * guarded transition over the user table that answers with a status code and
 * a body.
 *
 * Foreign parts are inputs: `valid` is the outcome of the request validator,
 * `sign` issues a session token for a key (`None` where signing throws, as it
 * does without a secret), `validPassword` compares a
 * candidate password with a stored one, `now` is the clock in milliseconds
 * and `resetToken` is the random reset token.
 */
module AuthController {
  import opened Optional
  import opened UserTable

  /** `resetExpires.setHours(resetExpires.getHours() + 1)`, in milliseconds. */
  const OneHourMs: int := 3_600_000

  const DuplicateUserMessage: string := "Username or email already exists"
  const InvalidCredentialsMessage: string := "Invalid credentials"
  const UnauthorizedMessage: string := "Unauthorized"
  const UserNotFoundMessage: string := "User not found"
  const InvalidVerificationMessage: string := "Invalid or expired verification token"
  const EmailVerifiedMessage: string := "Email verified successfully"
  const ResetNoticeMessage: string := "If your email is registered, you will receive a password reset link"
  const InvalidResetMessage: string := "Invalid or expired reset token"
  const PasswordResetMessage: string := "Password reset successfully"
  const ServerErrorMessage: string := "Server error"

  /** The user data register and login return: it has no password field. */
  datatype UserData = UserData(id: UserId, username: string, email: string, isVerified: bool)

  /** The row getCurrentUser returns: every column except the password. */
  datatype Profile = Profile(
    id: UserId,
    username: string,
    email: string,
    isVerified: bool,
    verificationToken: Option<string>,
    resetPasswordToken: Option<string>,
    resetPasswordExpires: Option<int>)

  datatype Body =
    | ValidationErrors
    | Message(text: string)
    | Session(user: UserData, token: string)
    | UserProfile(profile: Profile)

  datatype Response = Response(status: int, body: Body)

  /** The response together with the table after the request. */
  datatype Outcome = Outcome(response: Response, table: Table)

  /** The answer to a request the validator rejected: nothing is looked up or written. */
  function Rejected(t: Table): Outcome {
    Outcome(Response(400, ValidationErrors), t)
  }

  function DataOf(t: Table, i: nat): (d: UserData)
    requires i < |t.rows|
  {
    var u := t.rows[i];
    UserData(KeyOf(i), u.username, u.email, u.isVerified)
  }

  function ProfileOf(t: Table, i: nat): (p: Profile)
    requires i < |t.rows|
  {
    var u := t.rows[i];
    Profile(KeyOf(i), u.username, u.email, u.isVerified, u.verificationToken, u.resetPasswordToken, u.resetPasswordExpires)
  }

  /** Some account already uses `username` or `email`. */
  predicate Taken(t: Table, username: string, email: string) {
    exists i :: 0 <= i < |t.rows| && (t.rows[i].username == username || t.rows[i].email == email)
  }

  /** The row register creates: already verified, with no tokens. */
  function NewUser(username: string, email: string, password: string): User {
    User(username, email, password, true, None, None, None)
  }

  /**
   * Insert the new account unless its username or email is already in use,
   * checked in the same atomic step as the insert (as a unique index would).
   * `None` is the refused insert.
   */
  function InsertUnlessTaken(t: Table, username: string, email: string, password: string): (r: Option<Table>)
    ensures r.None? <==> Taken(t, username, email)
    ensures r.Some? ==> r.value.rows == t.rows + [NewUser(username, email, password)]
    ensures Unique(t) && r.Some? ==> Unique(r.value)
  {
    if Taken(t, username, email) then None
    else
      var t' := Table(t.rows + [NewUser(username, email, password)]);
      assert forall i :: 0 <= i < |t.rows| ==> t'.rows[i] == t.rows[i];
      Some(t')
  }

  /**
   * Register a new account. The row is written before the session token is
   * signed, so a failing `sign` answers 500 with the account already created.
   */
  function Register(t: Table, valid: bool, username: string, email: string, password: string,
                    sign: UserId -> Option<string>): (o: Outcome)
    ensures !valid ==> o == Rejected(t)
    ensures valid && Taken(t, username, email) ==>
              o == Outcome(Response(400, Message(DuplicateUserMessage)), t)
    ensures valid && !Taken(t, username, email) ==>
              o.table.rows == t.rows + [NewUser(username, email, password)]
    ensures o.response.status == 201 <==> valid && !Taken(t, username, email) && sign(|t.rows| + 1).Some?
    ensures o.response.status == 201 ==>
              o.response.body == Session(UserData(|t.rows| + 1, username, email, true), sign(|t.rows| + 1).value)
    ensures valid && !Taken(t, username, email) && sign(|t.rows| + 1).None? ==>
              o.response == Response(500, Message(ServerErrorMessage))
  {
    if !valid then Rejected(t)
    else if FindOne(t, ByUsernameOrEmail(username, email)).Some? then
      Outcome(Response(400, Message(DuplicateUserMessage)), t)
    else match InsertUnlessTaken(t, username, email, password)
      case None => Outcome(Response(400, Message(DuplicateUserMessage)), t)
      case Some(t') =>
        var i := |t.rows|;
        match sign(KeyOf(i))
        case None => Outcome(Response(500, Message(ServerErrorMessage)), t')
        case Some(token) => Outcome(Response(201, Session(DataOf(t', i), token)), t')
  }

  /** Log in with email and password; the table is not written. */
  function Login(t: Table, valid: bool, email: string, password: string,
                 validPassword: (User, string) -> bool, sign: UserId -> Option<string>): (r: Response)
    ensures !valid ==> r == Response(400, ValidationErrors)
    ensures valid && !AnyMatch(t, ByEmail(email)) ==> r == Response(401, Message(InvalidCredentialsMessage))
    ensures valid && r.status != 200 && r.status != 500 ==> r == Response(401, Message(InvalidCredentialsMessage))
    ensures r.status == 200 ==>
              exists i :: 0 <= i < |t.rows| && t.rows[i].email == email && validPassword(t.rows[i], password)
                          && sign(KeyOf(i)).Some? && r.body == Session(DataOf(t, i), sign(KeyOf(i)).value)
    ensures r.status == 500 ==>
              r.body == Message(ServerErrorMessage) &&
              exists i :: 0 <= i < |t.rows| && t.rows[i].email == email && validPassword(t.rows[i], password)
                          && sign(KeyOf(i)).None?
  {
    if !valid then Response(400, ValidationErrors)
    else match FindOne(t, ByEmail(email))
      case None => Response(401, Message(InvalidCredentialsMessage))
      case Some(i) =>
        if !validPassword(t.rows[i], password) then Response(401, Message(InvalidCredentialsMessage))
        else match sign(KeyOf(i))
          case None => Response(500, Message(ServerErrorMessage))
          case Some(token) => Response(200, Session(DataOf(t, i), token))
  }

  /** The identity the authentication middleware left on the request is falsy (absent, or the number 0). */
  predicate NoIdentity(authId: Option<UserId>) {
    authId.None? || authId.value == 0
  }

  /** The profile of the authenticated user; the table is not written. */
  function GetCurrentUser(t: Table, authId: Option<UserId>): (r: Response)
    ensures r.status == 401 <==> NoIdentity(authId)
    ensures r.status == 404 <==> !NoIdentity(authId) && authId.value > |t.rows|
    ensures r.status == 200 <==> authId.Some? && 1 <= authId.value <= |t.rows|
    ensures r.status == 200 ==>
              r.body.UserProfile? && r.body.profile.id == authId.value
              && r.body.profile == ProfileOf(t, authId.value - 1)
    ensures r.status == 404 ==> r.body == Message(UserNotFoundMessage)
    ensures r.status == 401 ==> r.body == Message(UnauthorizedMessage)
  {
    if NoIdentity(authId) then Response(401, Message(UnauthorizedMessage))
    else match FindByPk(t, authId.value)
      case None => Response(404, Message(UserNotFoundMessage))
      case Some(i) => Response(200, UserProfile(ProfileOf(t, i)))
  }

  /** The row after its email is confirmed. */
  function Verified(u: User): User {
    u.(isVerified := true, verificationToken := None)
  }

  /** Confirm the email of the account holding verification token `token`. */
  function VerifyEmail(t: Table, token: string): (o: Outcome)
    ensures !AnyMatch(t, ByVerificationToken(token)) ==>
              o == Outcome(Response(400, Message(InvalidVerificationMessage)), t)
    ensures o.response.status == 200 <==> AnyMatch(t, ByVerificationToken(token))
    ensures o.response.status == 200 ==>
              && o.response.body == Message(EmailVerifiedMessage)
              && exists i :: 0 <= i < |t.rows| && t.rows[i].verificationToken == Some(token)
                             && o.table.rows == t.rows[i := Verified(t.rows[i])]
  {
    match FindOne(t, ByVerificationToken(token))
    case None => Outcome(Response(400, Message(InvalidVerificationMessage)), t)
    case Some(i) =>
      Outcome(Response(200, Message(EmailVerifiedMessage)), Table(t.rows[i := Verified(t.rows[i])]))
  }

  /** The row after a reset was requested at time `now` with token `resetToken`. */
  function ResetRequested(u: User, resetToken: string, now: int): User {
    u.(resetPasswordToken := Some(resetToken), resetPasswordExpires := Some(now + OneHourMs))
  }

  /**
   * Request a password reset. The answer to a validated request is the same
   * whether or not the email is registered.
   */
  function ForgotPassword(t: Table, valid: bool, email: string, now: int, resetToken: string): (o: Outcome)
    ensures !valid ==> o == Rejected(t)
    ensures valid ==> o.response == Response(200, Message(ResetNoticeMessage))
    ensures !AnyMatch(t, ByEmail(email)) ==> o.table == t
    ensures valid && AnyMatch(t, ByEmail(email)) ==>
              exists i :: 0 <= i < |t.rows| && t.rows[i].email == email
                          && o.table.rows == t.rows[i := ResetRequested(t.rows[i], resetToken, now)]
  {
    if !valid then Rejected(t)
    else match FindOne(t, ByEmail(email))
      case None => Outcome(Response(200, Message(ResetNoticeMessage)), t)
      case Some(i) =>
        Outcome(Response(200, Message(ResetNoticeMessage)),
                Table(t.rows[i := ResetRequested(t.rows[i], resetToken, now)]))
  }

  /** The row after its password was reset: the reset token and its expiry are cleared. */
  function PasswordReplaced(u: User, password: string): User {
    u.(password := password, resetPasswordToken := None, resetPasswordExpires := None)
  }

  /**
   * Save the new password on row `i` only if that row still holds `token`
   * unexpired, checked in the same atomic step as the write (a conditional
   * update). A row that no longer qualifies is left alone and answered 400.
   */
  function SaveResetIfLive(t: Table, i: nat, token: string, password: string, now: int): (o: Outcome)
    ensures o.response.status == 200 <==> i < |t.rows| && HoldsLiveResetToken(t.rows[i], token, now)
    ensures o.response.status == 200 ==>
              o.response.body == Message(PasswordResetMessage) &&
              o.table.rows == t.rows[i := PasswordReplaced(t.rows[i], password)]
    ensures o.response.status != 200 ==> o == Outcome(Response(400, Message(InvalidResetMessage)), t)
  {
    if i < |t.rows| && HoldsLiveResetToken(t.rows[i], token, now) then
      Outcome(Response(200, Message(PasswordResetMessage)), Table(t.rows[i := PasswordReplaced(t.rows[i], password)]))
    else Outcome(Response(400, Message(InvalidResetMessage)), t)
  }

  /**
   * Set a new password with a reset token. It succeeds exactly when some
   * account holds `token` with an expiry strictly later than `now`.
   */
  function ResetPassword(t: Table, valid: bool, token: string, password: string, now: int): (o: Outcome)
    ensures !valid ==> o == Rejected(t)
    ensures valid && !AnyMatch(t, ByLiveResetToken(token, now)) ==>
              o == Outcome(Response(400, Message(InvalidResetMessage)), t)
    ensures o.response.status == 200 <==> valid && AnyMatch(t, ByLiveResetToken(token, now))
    ensures o.response.status == 200 ==>
              && o.response.body == Message(PasswordResetMessage)
              && exists i :: 0 <= i < |t.rows| && HoldsLiveResetToken(t.rows[i], token, now)
                             && o.table.rows == t.rows[i := PasswordReplaced(t.rows[i], password)]
  {
    if !valid then Rejected(t)
    else match FindOne(t, ByLiveResetToken(token, now))
      case None => Outcome(Response(400, Message(InvalidResetMessage)), t)
      case Some(i) => SaveResetIfLive(t, i, token, password, now)
  }
}

=== FILE: auth_middleware.dfy ===
/**
 * The request authentication middlewares: `authenticate`, which refuses a
 * request without a valid token for an existing user, and `optionalAuth`,
 * which only attaches the user when it can.
 *
 * `verify` stands for token verification: the decoded user key, or `None`
 * where verification throws. A middleware's observable behaviour is the
 * sequence of effects it performs on the request and the response.
 */
module AuthMiddleware {
  import opened Optional
  import opened Strings
  import opened UserTable

  const BearerPrefix: string := "Bearer "
  const NoTokenMessage: string := "No token, authorization denied"
  const InvalidTokenMessage: string := "Token is not valid"
  const UserNotFoundMessage: string := "User not found"

  datatype Effect =
    | Send(status: int, message: string)   // res.status(status).json({ message })
    | SetUser(id: UserId)                  // req.user = { id }
    | CallNext                             // next()

  /**
   * `req.header('Authorization')?.replace('Bearer ', '')`: no header gives no
   * token; otherwise the header with its first "Bearer " removed, wherever
   * that occurrence is.
   */
  function ExtractToken(header: Option<string>): (token: Option<string>)
    ensures token.Some? <==> header.Some?
    ensures header.Some? && (forall j: nat :: !OccursAt(header.value, BearerPrefix, j)) ==> token == header
    ensures forall i: nat ::
              header.Some? && OccursAt(header.value, BearerPrefix, i) &&
              (forall j: nat :: j < i ==> !OccursAt(header.value, BearerPrefix, j)) ==>
                token == Some(header.value[..i] + header.value[i + |BearerPrefix|..])
  {
    match header
    case None => None
    case Some(h) => Some(RemoveFirst(h, BearerPrefix))
  }

  /** The request carries a token that verifies to the key of an existing user. */
  predicate Admits(header: Option<string>, verify: string -> Option<UserId>, t: Table) {
    var token := ExtractToken(header);
    && Truthy(token)
    && verify(token.value).Some?
    && FindByPk(t, verify(token.value).value).Some?
  }

  /** How many times next is called. */
  function CountNext(trace: seq<Effect>): nat {
    if |trace| == 0 then 0 else (if trace[0].CallNext? then 1 else 0) + CountNext(trace[1..])
  }

  /** `authenticate`: either calls next once with the user attached, or sends one 401 and stops. */
  function Authenticate(header: Option<string>, verify: string -> Option<UserId>, t: Table): (trace: seq<Effect>)
    ensures CallNext in trace <==> Admits(header, verify, t)
    ensures Admits(header, verify, t) ==> trace == [SetUser(verify(ExtractToken(header).value).value), CallNext]
    ensures !Admits(header, verify, t) ==> |trace| == 1 && trace[0].Send? && trace[0].status == 401
    ensures !Truthy(ExtractToken(header)) ==> trace == [Send(401, NoTokenMessage)]
    ensures Truthy(ExtractToken(header)) && verify(ExtractToken(header).value).None? ==>
              trace == [Send(401, InvalidTokenMessage)]
    ensures Truthy(ExtractToken(header)) && verify(ExtractToken(header).value).Some? && !Admits(header, verify, t) ==>
              trace == [Send(401, UserNotFoundMessage)]
  {
    var token := ExtractToken(header);
    if !Truthy(token) then [Send(401, NoTokenMessage)]
    else match verify(token.value)
      case None => [Send(401, InvalidTokenMessage)]
      case Some(id) =>
        if FindByPk(t, id).None? then [Send(401, UserNotFoundMessage)]
        else [SetUser(id), CallNext]
  }

  /** `optionalAuth`: never answers by itself, always calls next exactly once, attaching the user when it can. */
  function OptionalAuth(header: Option<string>, verify: string -> Option<UserId>, t: Table): (trace: seq<Effect>)
    ensures forall k :: 0 <= k < |trace| ==> !trace[k].Send?
    ensures CountNext(trace) == 1 && trace[|trace| - 1] == CallNext
    ensures (exists k :: 0 <= k < |trace| && trace[k].SetUser?) <==> Admits(header, verify, t)
    ensures forall k :: 0 <= k < |trace| && trace[k].SetUser? ==>
              trace[k].id == verify(ExtractToken(header).value).value
  {
    var token := ExtractToken(header);
    assert CountNext([CallNext]) == 1;
    if !Truthy(token) then [CallNext]
    else match verify(token.value)
      case None => [CallNext]
      case Some(id) =>
        if FindByPk(t, id).Some? then
          assert [SetUser(id), CallNext][1..] == [CallNext];
          [SetUser(id), CallNext]
        else [CallNext]
  }

  /** The two middlewares agree on who is authenticated: optionalAuth attaches exactly the user authenticate lets through. */
  lemma OptionalAuthAgreesWithAuthenticate(header: Option<string>, verify: string -> Option<UserId>, t: Table, id: UserId)
    ensures SetUser(id) in OptionalAuth(header, verify, t) <==> SetUser(id) in Authenticate(header, verify, t)
  {
  }

  /** A header of the form "Bearer <t>" yields token t. */
  lemma BearerHeaderYieldsToken(t: string)
    ensures ExtractToken(Some(BearerPrefix + t)) == Some(t)
  {
    RemoveFirstOfPrefix(BearerPrefix, t);
  }

  /** The header "Bearer " alone yields the empty token, which authenticate refuses as missing. */
  lemma BareBearerHeaderIsRefused(verify: string -> Option<UserId>, t: Table)
    ensures ExtractToken(Some(BearerPrefix)) == Some("")
    ensures Authenticate(Some(BearerPrefix), verify, t) == [Send(401, NoTokenMessage)]
  {
  }

  /** "Bearer " is cut out wherever it first occurs, not only at the start: "xBearer y" yields "xy". */
  lemma BearerRemovedAnywhere()
    ensures ExtractToken(Some("xBearer y")) == Some("xy")
  {
    var h := "x" + BearerPrefix + "y";
    assert "xBearer y" == h;
    assert h[0..|BearerPrefix|][0] == 'x' != BearerPrefix[0];
    RemoveFirstInside("x", BearerPrefix, "y");
    assert "x" + "y" == "xy";
  }

  /** A header without "Bearer " is used as the token unchanged. */
  lemma HeaderWithoutBearerIsToken(h: string)
    requires forall j: nat :: !OccursAt(h, BearerPrefix, j)
    ensures ExtractToken(Some(h)) == Some(h)
  {
  }
}

=== FILE: check_then_act.dfy ===
/**
 * Register and resetPassword each look a row up, wait for the database, and
 * only then write. Two requests handled at the same time can therefore both
 * pass the lookup before either writes. This module models the write steps
 * as they are written, shows what the interleaving does with them, and proves
 * that the atomic writes the rest of the model uses rule it out.
 */
module CheckThenAct {
  import opened Optional
  import opened UserTable
  import opened AuthController

  /** Register's `create` as written: the row is appended with no check of its own. */
  function CreateAsWritten(t: Table, username: string, email: string, password: string): (t': Table)
    ensures |t'.rows| == |t.rows| + 1 && t'.rows[|t.rows|] == NewUser(username, email, password)
    ensures forall i :: 0 <= i < |t.rows| ==> t'.rows[i] == t.rows[i]
  {
    Table(t.rows + [NewUser(username, email, password)])
  }

  /**
   * Two registers with a shared username or email, both looking up before
   * either creates: both lookups pass, both rows are created, and usernames
   * or emails are no longer unique.
   */
  lemma RacingRegistersAsWritten(t: Table, username1: string, email1: string, password1: string,
                                 username2: string, email2: string, password2: string)
    requires !Taken(t, username1, email1) && !Taken(t, username2, email2)
    requires username1 == username2 || email1 == email2
    ensures var t2 := CreateAsWritten(CreateAsWritten(t, username1, email1, password1), username2, email2, password2);
            |t2.rows| == |t.rows| + 2 && !Unique(t2)
  {
  }

  /**
   * The same interleaving against the atomic insert: the first insert
   * succeeds and keeps the table unique, the second is refused.
   */
  lemma RacingRegistersCorrected(t: Table, username1: string, email1: string, password1: string,
                                 username2: string, email2: string, password2: string)
    requires Unique(t)
    requires !Taken(t, username1, email1) && !Taken(t, username2, email2)
    requires username1 == username2 || email1 == email2
    ensures var r1 := InsertUnlessTaken(t, username1, email1, password1);
            && r1.Some? && Unique(r1.value)
            && InsertUnlessTaken(r1.value, username2, email2, password2).None?
  {
    var r1 := InsertUnlessTaken(t, username1, email1, password1);
    var i := |t.rows|;
    assert r1.value.rows[i] == NewUser(username1, email1, password1);
    assert r1.value.rows[i].username == username2 || r1.value.rows[i].email == email2;
  }

  /**
   * resetPassword's `save` as written, on the row the lookup returned: it
   * writes whatever that row holds by now and always answers 200.
   */
  function SaveResetAsWritten(t: Table, i: nat, password: string): (o: Outcome)
    requires i < |t.rows|
    ensures o.response == Response(200, Message(PasswordResetMessage))
    ensures |o.table.rows| == |t.rows| && o.table.rows[i].password == password
    ensures o.table.rows[i].resetPasswordToken.None? && o.table.rows[i].resetPasswordExpires.None?
    ensures forall j :: 0 <= j < |t.rows| && j != i ==> o.table.rows[j] == t.rows[j]
  {
    Outcome(Response(200, Message(PasswordResetMessage)), Table(t.rows[i := PasswordReplaced(t.rows[i], password)]))
  }

  /**
   * Two resets with the same live token, both looking up before either
   * saves: both answer 200, the second although the first had already
   * consumed the token, and the second password wins.
   */
  lemma RacingResetsAsWritten(t: Table, token: string, now: int, password1: string, password2: string)
    requires AnyMatch(t, ByLiveResetToken(token, now))
    ensures var i := FindOne(t, ByLiveResetToken(token, now)).value;
            var o1 := SaveResetAsWritten(t, i, password1);
            var o2 := SaveResetAsWritten(o1.table, i, password2);
            && o1.response.status == 200 && o2.response.status == 200
            && !HoldsLiveResetToken(o1.table.rows[i], token, now)
            && o2.table.rows[i].password == password2
  {
  }

  /** The same interleaving against the conditional save: only the first reset is accepted. */
  lemma RacingResetsCorrected(t: Table, token: string, now: int, password1: string, password2: string)
    requires AnyMatch(t, ByLiveResetToken(token, now))
    ensures var i := FindOne(t, ByLiveResetToken(token, now)).value;
            var o1 := SaveResetIfLive(t, i, token, password1, now);
            var o2 := SaveResetIfLive(o1.table, i, token, password2, now);
            && o1.response.status == 200
            && o2 == Outcome(Response(400, Message(InvalidResetMessage)), o1.table)
            && o2.table.rows[i].password == password1
  {
  }
}

=== FILE: mod_edge.dfy ===
/**
 * How the mod editor draws an edge: its colour from the branch tag or the
 * direction, its stroke width and dash pattern, and the delete control shown
 * on a selected edge. Coordinates are compared only by order.
 */
module ModEdge {
  import opened Optional

  const ConditionTrue: string := "condition-true"
  const ConditionFalse: string := "condition-false"

  const TrueBranchColor: string := "#10b981"
  const FalseBranchColor: string := "#ef4444"
  const ForwardColor: string := "#8b5cf6"
  const BackwardColor: string := "#f59e0b"

  /** The edge's `data`: its `type` tag, whether it is dashed, and whether an `onDelete` callback is attached. */
  datatype EdgeData = EdgeData(tag: Option<string>, dashed: bool, hasOnDelete: bool)

  /** `data?.type`. */
  function Tag(data: Option<EdgeData>): Option<string> {
    match data
    case None => None
    case Some(d) => d.tag
  }

  predicate IsBranchTag(tag: Option<string>) {
    tag == Some(ConditionTrue) || tag == Some(ConditionFalse)
  }

  /** `determineEdgeColor`. */
  function EdgeColor(data: Option<EdgeData>, sourceX: real, targetX: real): (c: string)
    ensures c in {TrueBranchColor, FalseBranchColor, ForwardColor, BackwardColor}
    ensures Tag(data) == Some(ConditionTrue) <==> c == TrueBranchColor
    ensures Tag(data) == Some(ConditionFalse) <==> c == FalseBranchColor
    ensures c == ForwardColor <==> !IsBranchTag(Tag(data)) && sourceX < targetX
    ensures c == BackwardColor <==> !IsBranchTag(Tag(data)) && sourceX >= targetX
  {
    if Tag(data) == Some(ConditionTrue) then TrueBranchColor
    else if Tag(data) == Some(ConditionFalse) then FalseBranchColor
    else if sourceX < targetX then ForwardColor
    else BackwardColor
  }

  /** A branch tag decides the colour wherever the endpoints are. */
  lemma BranchTagIgnoresDirection(data: Option<EdgeData>, x1: real, x2: real, y1: real, y2: real)
    requires IsBranchTag(Tag(data))
    ensures EdgeColor(data, x1, x2) == EdgeColor(data, y1, y2)
  {
  }

  /** Reversing an untagged edge swaps its colour, except that a vertical edge is drawn backward both ways. */
  lemma ReversedUntaggedEdge(data: Option<EdgeData>, sourceX: real, targetX: real)
    requires !IsBranchTag(Tag(data))
    ensures sourceX != targetX ==>
              (EdgeColor(data, sourceX, targetX) == ForwardColor <==>
               EdgeColor(data, targetX, sourceX) == BackwardColor)
    ensures sourceX == targetX ==>
              EdgeColor(data, sourceX, targetX) == BackwardColor == EdgeColor(data, targetX, sourceX)
  {
  }

  datatype StyleValue = Text(text: string) | Number(n: int)

  const StrokeKey: string := "stroke"
  const StrokeWidthKey: string := "strokeWidth"
  const DashKey: string := "strokeDasharray"

  /**
   * The style handed to the drawn edge: the caller's `style` with the stroke
   * colour, width and dash pattern set over it; every other entry passes
   * through.
   */
  function EdgeStyle(base: map<string, StyleValue>, data: Option<EdgeData>, selected: bool,
                     sourceX: real, targetX: real): (style: map<string, StyleValue>)
    ensures style.Keys == base.Keys + {StrokeKey, StrokeWidthKey, DashKey}
    ensures forall k :: k in base && k !in {StrokeKey, StrokeWidthKey, DashKey} ==> style[k] == base[k]
    ensures style[StrokeKey] == Text(EdgeColor(data, sourceX, targetX))
    ensures style[StrokeWidthKey] in {Number(2), Number(3)}
    ensures style[StrokeWidthKey] == Number(3) <==> selected
    ensures style[DashKey] in {Text("5,5"), Text("none")}
    ensures style[DashKey] == Text("5,5") <==> data.Some? && data.value.dashed
  {
    var dashed := match data case None => false case Some(d) => d.dashed;
    base[StrokeKey := Text(EdgeColor(data, sourceX, targetX))]
        [StrokeWidthKey := Number(if selected then 3 else 2)]
        [DashKey := Text(if dashed then "5,5" else "none")]
  }

  /** The CSS `display` of the delete control. */
  function DeleteControlDisplay(selected: bool): (display: string)
    ensures display == "flex" <==> selected
    ensures display in {"flex", "none"}
  {
    if selected then "flex" else "none"
  }

  /** The click handler: the edge id handed to `onDelete`, or nothing when no callback is attached. */
  function DeleteClick(id: string, data: Option<EdgeData>): (deleted: Option<string>)
    ensures deleted.Some? <==> data.Some? && data.value.hasOnDelete
    ensures deleted.Some? ==> deleted.value == id
  {
    if data.Some? && data.value.hasOnDelete then Some(id) else None
  }

  /**
   * What a click on the delete control can request: the control is only
   * displayed on a selected edge, so only a selected edge with a callback
   * can be deleted, and only under its own id.
   */
  function DeleteRequest(id: string, data: Option<EdgeData>, selected: bool): (deleted: Option<string>)
    ensures deleted.Some? <==> selected && data.Some? && data.value.hasOnDelete
    ensures deleted.Some? ==> deleted.value == id
  {
    if DeleteControlDisplay(selected) == "flex" then DeleteClick(id, data) else None
  }
}

=== FILE: optional.dfy ===
/** The optional values of the TypeScript sources (`undefined`, `null` or a value). */
module Optional {

  /** A value that may be absent: `undefined` and `null` become `None`. */
  datatype Option<+T> = None | Some(value: T)
}

=== FILE: register_form.dfy ===
/**
 * The registration page's form logic: the field update on every keystroke,
 * the password and terms checks run on submit, the submit gate, and the
 * rule that disables the submit button.
 */
module RegisterForm {
  import opened Optional

  const MinPasswordLength: nat := 8
  const MismatchError: string := "Passwords do not match"
  const WeakPasswordError: string := "Password must be at least 8 characters long and contain both letters and numbers"
  const HomePath: string := "/"

  datatype FormData = FormData(username: string, email: string, password: string, confirmPassword: string)

  /**
   * The page's state: the four fields, the terms checkbox, the password
   * error shown under the password fields, and the error the auth context
   * displays.
   */
  datatype FormState = FormState(form: FormData, acceptTerms: bool, passwordError: Option<string>,
                                 authError: Option<string>)

  /** The state the page starts in: every field empty, the terms unaccepted, no password error. */
  function Initial(authError: Option<string>): (s: FormState)
    ensures forall n :: Field(s.form, n).Some? ==> Field(s.form, n) == Some("")
    ensures !s.acceptTerms && s.passwordError.None? && s.authError == authError
  {
    FormState(FormData("", "", "", ""), false, None, authError)
  }

  /** Reading property `name` of the form object; names other than the four fields are absent. */
  function Field(f: FormData, name: string): Option<string> {
    if name == "username" then Some(f.username)
    else if name == "email" then Some(f.email)
    else if name == "password" then Some(f.password)
    else if name == "confirmPassword" then Some(f.confirmPassword)
    else None
  }

  /** `{ ...prev, [name]: value }`, as far as the four fields are concerned. */
  function SetField(f: FormData, name: string, value: string): FormData {
    if name == "username" then f.(username := value)
    else if name == "email" then f.(email := value)
    else if name == "password" then f.(password := value)
    else if name == "confirmPassword" then f.(confirmPassword := value)
    else f
  }

  predicate IsPasswordField(name: string) {
    name == "password" || name == "confirmPassword"
  }

  /**
   * `handleChange`: the named field takes the typed value and no other field
   * changes; the auth error is cleared; the password error is cleared only
   * when a password field changed.
   */
  function HandleChange(s: FormState, name: string, value: string): (s': FormState)
    ensures Field(s.form, name).Some? ==> Field(s'.form, name) == Some(value)
    ensures forall n :: n != name ==> Field(s'.form, n) == Field(s.form, n)
    ensures Field(s.form, name).None? ==> s'.form == s.form
    ensures IsPasswordField(name) ==> s'.passwordError == None
    ensures !IsPasswordField(name) ==> s'.passwordError == s.passwordError
    ensures s'.acceptTerms == s.acceptTerms && s'.authError == None
  {
    FormState(SetField(s.form, name, value), s.acceptTerms,
              if IsPasswordField(name) then None else s.passwordError, None)
  }

  /** The terms checkbox was toggled. */
  function SetAcceptTerms(s: FormState, checked: bool): (s': FormState)
    ensures s'.acceptTerms == checked
    ensures s'.form == s.form && s'.passwordError == s.passwordError && s'.authError == s.authError
  {
    s.(acceptTerms := checked)
  }

  /** `/\d/` in a regular expression without the unicode flag matches exactly these. */
  predicate IsAsciiDigit(c: char) {
    '0' <= c <= '9'
  }

  /** `/[a-zA-Z]/`. */
  predicate IsAsciiLetter(c: char) {
    'a' <= c <= 'z' || 'A' <= c <= 'Z'
  }

  /** `/\d/.test(s)`, scanning from the left. */
  function TestDigit(s: string): (r: bool)
    ensures r <==> exists i :: 0 <= i < |s| && IsAsciiDigit(s[i])
  {
    if |s| == 0 then false
    else if IsAsciiDigit(s[0]) then true
    else
      assert forall i :: 1 <= i < |s| ==> s[i] == s[1..][i - 1];
      TestDigit(s[1..])
  }

  /** `/[a-zA-Z]/.test(s)`, scanning from the left. */
  function TestLetter(s: string): (r: bool)
    ensures r <==> exists i :: 0 <= i < |s| && IsAsciiLetter(s[i])
  {
    if |s| == 0 then false
    else if IsAsciiLetter(s[0]) then true
    else
      assert forall i :: 1 <= i < |s| ==> s[i] == s[1..][i - 1];
      TestLetter(s[1..])
  }

  /** The strength rule, stated directly: at least 8 characters, a digit and a letter. */
  ghost predicate Strong(p: string) {
    && |p| >= MinPasswordLength
    && (exists i :: 0 <= i < |p| && IsAsciiDigit(p[i]))
    && (exists i :: 0 <= i < |p| && IsAsciiLetter(p[i]))
  }

  /** What `validateForm` answers, and the password error it leaves behind. */
  datatype Verdict = Verdict(ok: bool, passwordError: Option<string>)

  /**
   * `validateForm`: the passwords must match (checked first, so a weak
   * mismatched password reports the mismatch), the password must be strong,
   * and the terms must be accepted; unaccepted terms set no password error.
   */
  function ValidateForm(s: FormState): (v: Verdict)
    ensures v.ok <==> s.form.password == s.form.confirmPassword && Strong(s.form.password) && s.acceptTerms
    ensures s.form.password != s.form.confirmPassword ==> v == Verdict(false, Some(MismatchError))
    ensures s.form.password == s.form.confirmPassword && !Strong(s.form.password) ==>
              v == Verdict(false, Some(WeakPasswordError))
    ensures s.form.password == s.form.confirmPassword && Strong(s.form.password) ==>
              v.passwordError == s.passwordError
  {
    var p := s.form.password;
    if p != s.form.confirmPassword then Verdict(false, Some(MismatchError))
    else if |p| < MinPasswordLength || !TestDigit(p) || !TestLetter(p) then Verdict(false, Some(WeakPasswordError))
    else if !s.acceptTerms then Verdict(false, s.passwordError)
    else Verdict(true, s.passwordError)
  }

  /** What the register call of the auth context receives. */
  datatype Credentials = Credentials(username: string, email: string, password: string)

  /** The effects of one submit: the state afterwards, the register call made, and the navigation. */
  datatype Submission = Submission(state: FormState, register: Option<Credentials>, navigateTo: Option<string>)

  /**
   * `handleSubmit`: register is called only with a valid form, with the
   * form's username, email and password, and is always followed by
   * navigation home. The auth context's register clears its error first and
   * never throws, so a submit that registers leaves no auth error.
   */
  function HandleSubmit(s: FormState): (sub: Submission)
    ensures sub.register.Some? <==>
              s.form.password == s.form.confirmPassword && Strong(s.form.password) && s.acceptTerms
    ensures sub.register.Some? ==>
              sub.register.value == Credentials(s.form.username, s.form.email, s.form.password)
    ensures sub.navigateTo.Some? <==> sub.register.Some?
    ensures sub.navigateTo.Some? ==> sub.navigateTo.value == HomePath
    ensures sub.state.form == s.form && sub.state.acceptTerms == s.acceptTerms
    ensures sub.state.passwordError == ValidateForm(s).passwordError
    ensures sub.register.None? ==> sub.state.authError == s.authError
    ensures sub.register.Some? ==> sub.state.authError == None
  {
    var v := ValidateForm(s);
    var s' := s.(passwordError := v.passwordError);
    if !v.ok then Submission(s', None, None)
    else Submission(s'.(authError := None), Some(Credentials(s.form.username, s.form.email, s.form.password)), Some(HomePath))
  }

  /** `disabled={isLoading || !acceptTerms}`: the button is enabled only when nothing loads and the terms are accepted. */
  function SubmitDisabled(s: FormState, isLoading: bool): (disabled: bool)
    ensures !disabled <==> !isLoading && s.acceptTerms
  {
    isLoading || !s.acceptTerms
  }

  /** When the button can be pressed, only the password checks can stop the submit. */
  lemma EnabledSubmitOnlyChecksPasswords(s: FormState, isLoading: bool)
    requires !SubmitDisabled(s, isLoading)
    ensures HandleSubmit(s).register.Some? <==> s.form.password == s.form.confirmPassword && Strong(s.form.password)
  {
  }

  /**
   * A submit refused by the password checks leaves a password error behind,
   * and typing in a password field clears it again.
   */
  lemma TypingClearsPasswordError(s: FormState, name: string, value: string)
    requires IsPasswordField(name)
    ensures s.form.password != s.form.confirmPassword ==>
              HandleSubmit(s).state.passwordError == Some(MismatchError)
    ensures s.form.password == s.form.confirmPassword && !Strong(s.form.password) ==>
              HandleSubmit(s).state.passwordError == Some(WeakPasswordError)
    ensures HandleChange(HandleSubmit(s).state, name, value).passwordError == None
  {
  }

  /** A fresh page rejects submit: the terms are not accepted and the password is empty. */
  lemma InitialFormIsRejected(authError: Option<string>)
    ensures HandleSubmit(Initial(authError)).register == None
    ensures SubmitDisabled(Initial(authError), false)
  {
  }

  /** Concrete passwords: "abcdefg1" is strong; one without a digit, one without a letter and a 7-character one are not. */
  lemma PasswordStrengthExamples()
    ensures Strong("abcdefg1")
    ensures !Strong("abcdefgh") && !Strong("12345678") && !Strong("abc1234")
  {
    assert IsAsciiDigit("abcdefg1"[7]);
    assert IsAsciiLetter("abcdefg1"[0]);
    assert !TestDigit("abcdefgh");
    assert !TestLetter("12345678");
  }
}

=== FILE: socket_middleware.dfy ===
/**
 * `authenticateSocket`: the handshake check every socket connection passes.
 * The token comes from the handshake's auth payload, or from its `token`
 * header when the payload has none; `verify` stands for token verification.
 */
module SocketMiddleware {
  import opened Optional
  import opened Strings
  import opened UserTable

  const AuthenticationError: string := "Authentication error"
  const UserNotFoundError: string := "User not found"

  datatype SocketEffect =
    | SetUserId(id: UserId)          // socket.data.userId = id
    | Next(error: Option<string>)    // next() or next(new Error(message))

  /** `handshake.auth.token || handshake.headers.token`. */
  function SelectToken(authToken: Option<string>, headerToken: Option<string>): (token: Option<string>)
    ensures Truthy(token) <==> Truthy(authToken) || Truthy(headerToken)
    ensures Truthy(authToken) ==> token == authToken
    ensures !Truthy(authToken) && Truthy(headerToken) ==> token == headerToken
  {
    if Truthy(authToken) then authToken else headerToken
  }

  /** The handshake carries a token that verifies to the key of an existing user. */
  predicate Accepts(authToken: Option<string>, headerToken: Option<string>,
                    verify: string -> Option<UserId>, t: Table) {
    var token := SelectToken(authToken, headerToken);
    && Truthy(token)
    && verify(token.value).Some?
    && FindByPk(t, verify(token.value).value).Some?
  }

  /** How many times next is called. */
  function CountNext(trace: seq<SocketEffect>): nat {
    if |trace| == 0 then 0 else (if trace[0].Next? then 1 else 0) + CountNext(trace[1..])
  }

  function AuthenticateSocket(authToken: Option<string>, headerToken: Option<string>,
                              verify: string -> Option<UserId>, t: Table): (trace: seq<SocketEffect>)
    ensures |trace| > 0 && trace[|trace| - 1].Next?
    ensures CountNext(trace) == 1
    ensures Next(None) in trace <==> Accepts(authToken, headerToken, verify, t)
    ensures (exists k :: 0 <= k < |trace| && trace[k].SetUserId?) <==> Accepts(authToken, headerToken, verify, t)
    ensures forall k :: 0 <= k < |trace| && trace[k].SetUserId? ==>
              Some(trace[k].id) == verify(SelectToken(authToken, headerToken).value)
    ensures !Truthy(SelectToken(authToken, headerToken)) ==> trace == [Next(Some(AuthenticationError))]
    ensures Truthy(SelectToken(authToken, headerToken)) && verify(SelectToken(authToken, headerToken).value).None? ==>
              trace == [Next(Some(AuthenticationError))]
    ensures Truthy(SelectToken(authToken, headerToken)) && verify(SelectToken(authToken, headerToken).value).Some?
            && !Accepts(authToken, headerToken, verify, t) ==>
              trace == [Next(Some(UserNotFoundError))]
  {
    var token := SelectToken(authToken, headerToken);
    if !Truthy(token) then
      [Next(Some(AuthenticationError))]
    else match verify(token.value)
      case None =>
        [Next(Some(AuthenticationError))]
      case Some(id) =>
        if FindByPk(t, id).None? then
          [Next(Some(UserNotFoundError))]
        else
          assert [SetUserId(id), Next(None)][1..] == [Next(None)];
          assert CountNext([Next(None)]) == 1;
          [SetUserId(id), Next(None)]
  }

  /** A header token is only consulted when the auth payload has no usable token. */
  lemma AuthTokenTakesPrecedence(authToken: string, headerToken: Option<string>,
                                 verify: string -> Option<UserId>, t: Table)
    requires authToken != ""
    ensures AuthenticateSocket(Some(authToken), headerToken, verify, t) ==
            AuthenticateSocket(Some(authToken), None, verify, t)
  {
  }
}

=== FILE: strings.dfy ===
/** The few JavaScript string operations the modelled code relies on. */
module Strings {
  import opened Optional

  /** JavaScript truthiness of a possibly missing string: `undefined`, `null` and `''` are falsy. */
  predicate Truthy(s: Option<string>) {
    s.Some? && s.value != ""
  }

  /** `pat` occurs in `s` starting at position `i`. */
  predicate OccursAt(s: string, pat: string, i: nat) {
    i + |pat| <= |s| && s[i..i + |pat|] == pat
  }

  /** The position of the first occurrence of `pat` in `s` at or after `from`. */
  function IndexOfFrom(s: string, pat: string, from: nat): (r: Option<nat>)
    ensures r.Some? ==> from <= r.value && OccursAt(s, pat, r.value)
    ensures r.Some? ==> forall j: nat :: from <= j < r.value ==> !OccursAt(s, pat, j)
    ensures r.None? ==> forall j: nat :: from <= j ==> !OccursAt(s, pat, j)
    decreases |s| - from
  {
    if from + |pat| > |s| then None
    else if OccursAt(s, pat, from) then Some(from)
    else IndexOfFrom(s, pat, from + 1)
  }

  /** `String.prototype.indexOf` with a string argument. */
  function IndexOf(s: string, pat: string): Option<nat> {
    IndexOfFrom(s, pat, 0)
  }

  /**
   * `s.replace(pat, '')` with a string (not a regular expression) pattern:
   * only the FIRST occurrence of `pat` is removed, wherever it is; without
   * an occurrence the string is returned as it is. (An empty replacement has
   * none of the `$` patterns `replace` would expand.)
   */
  function RemoveFirst(s: string, pat: string): (r: string)
    ensures (forall j: nat :: !OccursAt(s, pat, j)) ==> r == s
    ensures forall i: nat :: OccursAt(s, pat, i) && (forall j: nat :: j < i ==> !OccursAt(s, pat, j)) ==>
                          r == s[..i] + s[i + |pat|..]
  {
    match IndexOf(s, pat)
    case None => s
    case Some(i) => s[..i] + s[i + |pat|..]
  }

  /** A string that starts with `pat` loses its leading copy. */
  lemma RemoveFirstOfPrefix(pat: string, rest: string)
    ensures RemoveFirst(pat + rest, pat) == rest
  {
  }

  /**
   * An occurrence after a part in which `pat` does not occur is the one that
   * is removed, so `replace` also cuts `pat` out of the middle of a string.
   */
  lemma RemoveFirstInside(before: string, pat: string, after: string)
    requires forall j: nat :: j < |before| ==> !OccursAt(before + pat + after, pat, j)
    ensures RemoveFirst(before + pat + after, pat) == before + after
  {
    var s := before + pat + after;
    var i := |before|;
    assert s[i..i + |pat|] == pat;
    assert OccursAt(s, pat, i);
    assert IndexOf(s, pat) == Some(i);
    assert s[..i] == before;
    assert s[i + |pat|..] == after;
  }
}

=== FILE: user_table.dfy ===
/**
 * The `User` table as the authentication controller and the middlewares see
 * it. The row at index `i` is assumed to have the numeric primary key
 * `i + 1`, as an auto-increment column starting at 1 would assign it (the
 * user model's definition is not in the source); no modelled operation
 * deletes a row.
 */
module UserTable {
  import opened Optional

  /** Primary key of a user; 0 is never assigned. */
  type UserId = nat

  /** One account. `password` is the stored credential (hashing is not modelled); times are milliseconds. */
  datatype User = User(
    username: string,
    email: string,
    password: string,
    isVerified: bool,
    verificationToken: Option<string>,
    resetPasswordToken: Option<string>,
    resetPasswordExpires: Option<int>)

  datatype Table = Table(rows: seq<User>)

  /** The primary key assumed for the row at index `i`. */
  function KeyOf(i: nat): UserId {
    i + 1
  }

  /** The `where` clauses the controller issues. */
  datatype Query =
    | ByEmail(email: string)
    | ByUsernameOrEmail(username: string, email: string)
    | ByVerificationToken(token: string)
    | ByLiveResetToken(token: string, now: int)

  /** A reset token that is held by `u` and expires strictly after `now`. */
  predicate HoldsLiveResetToken(u: User, token: string, now: int) {
    u.resetPasswordToken == Some(token) && u.resetPasswordExpires.Some? && u.resetPasswordExpires.value > now
  }

  /**
   * Whether row `u` satisfies the `where` clause `q`. A null column never
   * equals a string, and `Op.gt` on the expiry is a strict comparison that a
   * null expiry fails.
   */
  predicate Matches(u: User, q: Query)
    ensures q.ByVerificationToken? && u.verificationToken.None? ==> !Matches(u, q)
    ensures q.ByLiveResetToken? && Matches(u, q) ==>
              u.resetPasswordToken == Some(q.token) && u.resetPasswordExpires.Some? && u.resetPasswordExpires.value > q.now
    ensures q.ByLiveResetToken? && u.resetPasswordExpires == Some(q.now) ==> !Matches(u, q)
  {
    match q
    case ByEmail(e) => u.email == e
    case ByUsernameOrEmail(n, e) => u.username == n || u.email == e
    case ByVerificationToken(tok) => u.verificationToken == Some(tok)
    case ByLiveResetToken(tok, now) => HoldsLiveResetToken(u, tok, now)
  }

  /** Some row satisfies `q`. */
  predicate AnyMatch(t: Table, q: Query) {
    exists i :: 0 <= i < |t.rows| && Matches(t.rows[i], q)
  }

  /** `findOne`: the index of the matching row with the lowest key, if any. */
  function FindOneFrom(rows: seq<User>, q: Query, from: nat): (r: Option<nat>)
    ensures r.Some? ==> from <= r.value < |rows| && Matches(rows[r.value], q)
    ensures r.Some? ==> forall j :: from <= j < r.value ==> !Matches(rows[j], q)
    ensures r.None? ==> forall j :: from <= j < |rows| ==> !Matches(rows[j], q)
    decreases |rows| - from
  {
    if from >= |rows| then None
    else if Matches(rows[from], q) then Some(from)
    else FindOneFrom(rows, q, from + 1)
  }

  function FindOne(t: Table, q: Query): (r: Option<nat>)
    ensures r.Some? <==> AnyMatch(t, q)
    ensures r.Some? ==> r.value < |t.rows| && Matches(t.rows[r.value], q)
    ensures r.Some? ==> forall j :: 0 <= j < r.value ==> !Matches(t.rows[j], q)
  {
    FindOneFrom(t.rows, q, 0)
  }

  /** `findByPk`: the index of the row with key `id`, if there is one. */
  function FindByPk(t: Table, id: UserId): (r: Option<nat>)
    ensures r.Some? ==> r.value < |t.rows| && KeyOf(r.value) == id
    ensures r.None? ==> forall i :: 0 <= i < |t.rows| ==> KeyOf(i) != id
  {
    if 1 <= id <= |t.rows| then Some(id - 1) else None
  }

  /** No two accounts share a username, and no two share an email. */
  predicate Unique(t: Table) {
    forall i, j :: 0 <= i < |t.rows| && 0 <= j < |t.rows| && i != j ==>
      t.rows[i].username != t.rows[j].username && t.rows[i].email != t.rows[j].email
  }

  /** `t'` keeps every account of `t` under the same key, username and email, and may add accounts after them. */
  predicate KeepsIdentities(t: Table, t': Table) {
    && |t.rows| <= |t'.rows|
    && forall i :: 0 <= i < |t.rows| ==>
         t'.rows[i].username == t.rows[i].username && t'.rows[i].email == t.rows[i].email
  }
}
